=== FILE: README.md ===
# Portfolio pages: behaviour of the page scripts

A Dafny model of the client-side behaviour of a personal portfolio site. The site has three pages, each with its own script:

- **the home page** (`script.js`): a mobile navigation menu, a scroll spy that highlights the current section's links, a certifications slider, and a contact form. The form validates each field on blur and validates the whole form before posting it to a form relay.
- **the Python projects page** (`projetos-python/script.js`): the same kind of mobile menu, a registry of two projects, and a project modal. The menu and the modal both write the body's scroll lock.
- **the BI projects page** (`projetos-bi/script.js`): a registry of four projects, a modal whose markup is generated from a project record, an Escape handler, and category filter buttons.

All three pages share one pattern: the guards that intersection observers drive (animate a counter once, lazy-load an image once, reveal an element for good). What the home and BI pages wire at load time depends on the reader's reduced-motion preference; the Python page wires everything unconditionally.

Every handler is a pure function from page state to page state. The state has one field per DOM flag the handler reads or writes: a class, a flag variable, the scroll lock, a button's label. The fetch of the contact form is reduced to its outcome (`Ok`, `NotOk` or `Thrown`).

Modules, one per concern:

- `Wrappers`: `Option`.
- `JsText`: the ECMAScript white-space class, `trim` and counting.
- `EmailPattern`: the e-mail regular expression and an executable shape test proved equivalent to it.
- `ContactForm`: the validator and the submit/settle state machine.
- `Carousel`, `ActiveNav` and `Menu` (shared by two pages).
- `PythonPage`.
- `BiProjects` (the four records), `BiRender` (the generated modal markup as a block sequence) and `BiPage`.
- `OneShot`: the observer guards.
- `Startup`: page initialisation.

## Model

| member | source | states |
|---|---|---|
| JsText.Trim | script.js:325 | `trim` leaves no white space at either end |
| JsText.TrimSlice | script.js:325 | the trimmed value is the slice of the input between a white-space prefix and a white-space suffix |
| JsText.TrimUnique | script.js:325 | `trim` of any white space + m + white space, with m having non-space ends, is exactly m |
| JsText.TrimEmptyIff | script.js:325-333 | a value is empty after trimming if and only if it is entirely white space (the "required" test `!value`) |
| JsText.TrimIdempotent | script.js:325 | trimming twice equals trimming once |
| JsText.CountOneAt | script.js:337 | a character occurs exactly once iff no other position holds it (the single '@' of the e-mail pattern) |
| EmailPattern.ShapeIffRegex | script.js:337-338 | a string has the executable e-mail shape (no white space, one '@' with something before it, an inner '.' after it) iff the anchored pattern `^[^\s@]+@[^\s@]+\.[^\s@]+$` matches it |
| ContactForm.ValidateTrimmed | script.js:331-355 | an empty value is refused as required; otherwise the value is accepted iff it reaches its field's minimum length (name 2, textarea 10) and, for e-mail fields, matches the pattern; a refusal carries its field's message |
| ContactForm.RequiredIffBlank | script.js:325-333 | a field gets the required-field message iff its value is all white space |
| ContactForm.EmailFieldVerdict | script.js:335-342 | a non-blank e-mail field is accepted iff its trimmed value has the e-mail shape, and is otherwise refused with the e-mail message |
| ContactForm.ShowValidation | script.js:323-358 | validation changes only the field's error, which is cleared when the field is accepted and set to the verdict's message when it is refused |
| ContactForm.Init | script.js:296-298 | a fresh form holds the given fields, an enabled button with the given label, no request in flight, no requests and no notices |
| ContactForm.OnBlur | script.js:363-364 | blur gives the blurred field the error its verdict calls for (none, or the refusal message) and changes nothing else on it; every other field is untouched |
| ContactForm.OnInput | script.js:365 | input clears only the edited field's error |
| ContactForm.Submit | script.js:369-388 | every field is validated; a request is issued iff all fields are valid, and then the button is disabled with the sending label and its old label saved; otherwise the button is untouched and the "fix errors" notice is shown |
| ContactForm.ResetField | script.js:405-407 | a reset field holds its default value and shows no error, with nothing else changed |
| ContactForm.Settle | script.js:390-417 | on every outcome the saved label comes back and the button is re-enabled; only success resets the fields; exactly one notice is shown, and it matches the outcome |
| ContactForm.ConsistentPreserved | script.js:385-417 | submit and settle keep "request in flight iff button disabled, showing the sending label" |
| ContactForm.SubmitSettleRestoresButton | script.js:385-417 | a submit that sends, followed by its settlement, leaves the button exactly as before, with one more request issued |
| ContactForm.BlankFieldBlocksRequest | script.js:372-383 | one blank field blocks the request, shows the required message on that field and the "fix errors" notice |
| ContactForm.SuccessClearsErrors | script.js:403-408 | after a successful send no field shows an error and every value is its default |
| Carousel.JsRem | script.js:280 | JavaScript `%` on a non-negative dividend lies in [0, divisor) and agrees with the Euclidean remainder |
| Carousel.Init | script.js:271-292 | no items means no slider; otherwise the slider starts on the first item |
| Carousel.Show | script.js:273-277 | one active flag per item |
| Carousel.ExactlyOneActive | script.js:273-277 | showing an in-range index marks exactly that item active |
| Carousel.Next | script.js:279-282 | next moves one forward and wraps from the last item to the first |
| Carousel.Prev | script.js:284-287 | previous moves one back and wraps from the first item to the last |
| Carousel.PrevNextInverse | script.js:279-287 | previous undoes next, and next undoes previous |
| Carousel.AdvanceIndex | script.js:279-291 | after k presses of next or timer ticks, the index is (start + k) mod count |
| Carousel.FullCycle | script.js:279-291 | count ticks of the auto-advance bring the slider back to where it started |
| ActiveNav.UpdateActiveNavigation | script.js:100-118 | current is the id of the last section whose band [top-100, top-100+height) holds the scroll position, or empty; exactly the links whose href is "#" + current are active (only href "#" when no section is in view) |
| Menu.Toggle | script.js:60-69 | toggle flips the open flag and each class, and sets the scroll lock to the new flag |
| Menu.Close | script.js:75-79 | closing clears the flag, every class and the scroll lock |
| Menu.LinkClick | script.js:72-82 | a link click closes an open menu and does nothing to a closed one |
| Menu.Resize | script.js:84-92 | a resize closes an open menu exactly when the page's width threshold is passed, and otherwise changes nothing |
| Menu.StepKeepsCoherent | script.js:59-92 | when only the menu writes the lock, every menu event keeps the classes in step with the flag and the lock on exactly while the menu is open |
| Menu.ToggleTwice | script.js:60-69 | two toggles restore a coherent menu |
| Menu.ResizeThresholdsDiffer | projetos-python/script.js:91-99 | widths 769 to 992 close the menu on the Python page but not on the home page; any width that closes it on the home page also closes it on the Python page |
| PythonPage.Registry | projetos-python/script.js:189-406 | the registry holds exactly the two project ids, with their titles |
| PythonPage.Open | projetos-python/script.js:409-437 | an unknown id changes nothing; a known one shows that project's title and content, activates the modal and locks scroll, leaving the menu alone |
| PythonPage.Close | projetos-python/script.js:440-444 | closing always deactivates the modal and unlocks scroll, keeping the body and the menu |
| PythonPage.MenuStep | projetos-python/script.js:52-99 | the menu handlers never touch the modal |
| PythonPage.OpenTwice | projetos-python/script.js:420-431 | opening a second project replaces the first; the modal stays active and scroll stays locked |
| PythonPage.CloseIdempotent | projetos-python/script.js:440-444 | closing twice equals closing once; open then close leaves scroll unlocked |
| PythonPage.DocumentClickCloses | projetos-python/script.js:534-544 | a document click closes an open modal iff the target is the container or an overlay, outside the modal content |
| PythonPage.EscapeUnlocksOpenMenu | projetos-python/script.js:527-531 | as written, Escape with the menu open and no modal unlocks scroll while the menu stays open |
| PythonPage.ToggleUnlocksOpenModal | projetos-python/script.js:53-74 | as written, opening the menu, opening a project and then toggling the menu shut unlocks scroll under the open modal |
| PythonPage.StepFixed | projetos-python/script.js:65-66 | the corrected handlers change the menu and the modal exactly as the handlers as written do |
| PythonPage.StepFixedKeepsLock | projetos-python/script.js:525-539 | with the corrected handlers, scroll stays locked iff the menu is open or a project is shown |
| PythonPage.StepFixedAgrees | projetos-python/script.js:525-539 | wherever the handlers as written keep that invariant, the corrected ones behave identically |
| BiProjects.GetProjectData | projetos-bi/script.js:157-259 | a record exists iff the id is one of the four known ids; only "toners" and "maquinas" have screenshots; each record has six features and four results |
| BiRender.RenderItems | projetos-bi/script.js:280-304 | in the rendered block sequence the features, technologies and results are exactly the record's lists: same entries, same order, none dropped or duplicated |
| BiRender.RenderGallery | projetos-bi/script.js:306-321 | gallery items appear iff the record has images, one per image in order, numbered 1 to n |
| BiRender.HeadingTextInjective | projetos-bi/script.js:271-308 | the six `<h3>` texts of the modal are pairwise different, so each names exactly one section |
| BiRender.RenderSectionOrder | projetos-bi/script.js:269-321 | the headings come in the order challenge, solution, features, technologies, results, then screenshots only when the record has images |
| BiRender.RenderHeaderFirst | projetos-bi/script.js:263-277 | the markup opens with category, title and description, followed by the challenge and solution paragraphs |
| BiRender.RenderRecover | projetos-bi/script.js:261-334 | the rendered block sequence determines its record: reading it back gives the record itself |
| BiPage.Open | projetos-bi/script.js:122-140 | with both containers and a known id the modal body is exactly the record's rendering (so the order, gallery and header lemmas of `BiRender` apply to it) and reads back to the record; the modal activates, sets the open flag and locks scroll; in any other case nothing changes |
| BiPage.Close | projetos-bi/script.js:142-150 | with the container present the modal is deactivated, the flag cleared and scroll unlocked; without it nothing changes |
| BiPage.KeyDown | projetos-bi/script.js:450-456 | only Escape while the modal is open closes it |
| BiPage.HandlersKeepInSync | projetos-bi/script.js:122-150 | open, close and Escape keep the active class, the open flag and the scroll lock equal |
| BiPage.CloseIdempotent | projetos-bi/script.js:142-150 | closing twice equals closing once; Escape on a closed modal changes nothing |
| BiPage.OpenTwice | projetos-bi/script.js:126-136 | opening two projects in a row is the same as opening the second |
| BiPage.FilterCards | projetos-bi/script.js:105-116 | each card is shown iff the filter is "all" or equals its category; categories are kept |
| BiPage.ClickFilter | projetos-bi/script.js:90-101 | exactly the clicked button becomes active, the cards are filtered by its value, and that value becomes the current filter |
| BiPage.ClickFilterIdempotent | projetos-bi/script.js:90-101 | clicking the same button twice equals clicking it once |
| BiPage.AllShowsEverything | projetos-bi/script.js:109 | the "all" button shows every card, including cards without a category |
| OneShot.CounterEntry | projetos-bi/script.js:65-74 | an intersecting entry starts an animation only on an unanimated counter and marks it animated |
| OneShot.CounterAnimatesOnce | script.js:250-262 | however many entries arrive, a counter is animated exactly once if any entry intersects, and never otherwise |
| OneShot.LazyEntry | projetos-python/script.js:566-580 | the first intersecting entry copies a non-empty `data-lazy` into the source, adds the loaded class and unobserves the element; other entries change nothing |
| OneShot.UnobservedIsFinal | projetos-python/script.js:566-582 | an unobserved element ignores every later entry |
| OneShot.LazyLoadsOnce | projetos-python/script.js:565-582 | an element stays observed until an entry intersects, and its source is set from `data-lazy` exactly when one did and the attribute was non-empty |
| OneShot.RevealEntry | script.js:147-150 | an intersecting entry reveals the element and nothing hides it |
| OneShot.RevealMonotonic | script.js:147-181 | an element ends revealed iff it started revealed or some entry intersected |
| Startup.HomeInit | script.js:676-697 | under reduced motion the home page wires nothing, not even the menu or the contact form; otherwise it wires everything |
| Startup.BiInit | projetos-bi/script.js:462-474 | the BI page always wires filters, the navbar effect and the keyboard; scroll animations and counters are wired iff reduced motion is off |
| Startup.ReducedMotionDiffers | projetos-bi/script.js:462-474 | under reduced motion the BI page keeps filters and the keyboard while the home page wires none of its twelve initialisers |

## Left out

- DOM geometry, styles and animation are not modelled. Inline CSS, colours, the navbar background, transitions and animation delays have no effect on page state. Elements are reduced to the flags and texts the handlers read and write.
- Timers are left out. Each handler is modelled as one run at the moment it executes; which events make it run is not modelled. `setTimeout`, `setInterval` and `requestAnimationFrame` delay a run. The debounce (projetos-python/script.js:14-24) collapses a burst of calls into one delayed run of the last; its only user, the resize handler at projetos-python/script.js:91, reads the width when it runs, so `Menu.Resize` on that width is the run. The throttle (script.js:38-48) instead drops every call that arrives within its window and makes no trailing call. The carousel's auto-advance is `Advance`, one tick per step.
- IntersectionObserver thresholds and root margins are left out. An observer is the stream of its entries' `isIntersecting` values for one element.
- The contact form's request to the form relay is left out. Only its outcome (`Ok`, `NotOk`, `Thrown` with a message) is modelled; the form data and headers are not.
- The form's submit event is taken to arrive only while the submit button is enabled. A browser does not submit implicitly through a disabled default button. A second submit during a request is therefore not modelled.
- The number animation of counters is left out (it is floating point with frame timing). So are the typewriter, the skill bars, the parallax, the custom cursor, the magnetic buttons, the floating elements, the particle canvas and the preloader. The skill bars (script.js:208-223) unobserve a bar on its first intersecting entry, the same one-shot pattern as `OneShot.LazyEntry`.
- Smooth scrolling, the navbar scroll effect and the Python page's scroll tick are left out: they only move the viewport or change styles.
- `openProjectDemo`, `requestAccess`, `openImageModal` and `initModalImageHandlers` of the BI page are left out: they only show a notification. `showNotification`'s markup and timing are left out too; a notice is its level and text.
- The Python modal's re-armed scroll reveal (a timer plus a new observer) is left out. `initEntryAnimations` is left out as well.
- The Python page's window listeners are left out. The `error` listener only logs. The `beforeunload` listener (projetos-python/script.js:627-630) sets the body's `overflow` to `auto` as the page unloads; no handler runs on the page after that.
- PythonPage.Registry: the section markup of each project is an opaque `Blob`. The titles and the two ids are modelled exactly, but the markup is not inspected.
- PythonPage.Open: keys every object inherits, such as "constructor", "toString" or "__proto__", are treated as unknown ids, which leaves the page unchanged. In the browser `projetosData[id]` is truthy for them (projetos-python/script.js:412-414). The modal then opens with "undefined" as its title and content, and scroll locks.
- BiProjects.GetProjectData: a lookup such as `projects["constructor"]` reaches an inherited object property in JavaScript. The model answers `None` for every id other than the four own keys.
- ContactForm.ShowValidation: each field is assumed to be alone in its parent element. The page finds a field's error element through `field.parentNode.querySelector('.field-error')` (script.js:303, 320), so two fields sharing a parent share one error element: validating the second removes or overwrites the first one's message, where the model keeps one error per field.
- ContactForm.ValidateTrimmed: string lengths count code points. JavaScript's `length` counts UTF-16 code units, so a name made of one astral character passes the two-character minimum in the browser but not in the model.
- ActiveNav.UpdateActiveNavigation: `pageYOffset`, `offsetTop` and `clientHeight` are integers here. Sub-pixel scroll positions are not modelled.
- ActiveNav.UpdateActiveNavigation: the contract describes one run for the scroll position it reads. The page runs it through the throttle (script.js:120), so a scroll that ends inside the throttle window leaves the highlight of the last run in place, possibly on an earlier section. That staleness is not modelled.
- BiRender.RenderRecover: the round trip, and the per-list entries and counts of `BiRender.RenderItems`, hold on the block sequence. They carry over to the HTML string only for fields without markup characters (`<`, `>`, `&`, quotes): a feature `a</li><li>b` gives the same markup as the two features `a` and `b`. None of the four records contains such a character, but that is not proved.
- No HTML escaping is modelled. The pages insert every field into markup verbatim, and `BiRender.Render` keeps fields verbatim as well. A project title containing a quote would break the request button's `onclick` attribute; that is not modelled.

## Findings

| source | as written | input that shows it | evidently intended | confidence | as-written member | corrected member |
|---|---|---|---|---|---|---|
| projetos-python/script.js:527-531 (with 53-66, 440-444) | Escape always runs `closeProjectModal`, which sets `overflow` to `auto`. The menu toggle also writes `overflow` from the menu flag alone. | Mobile menu open, no project shown, key "Escape": scroll unlocks while the menu stays open. Likewise, menu open, project shown, toggle click: scroll unlocks under the open modal. | The body stays scroll-locked while the menu is open or a project is shown, as the comment at line 65 says for the menu | medium, not executed | PythonPage.EscapeUnlocksOpenMenu | PythonPage.StepFixedKeepsLock |

=== FILE: active_nav.dfy ===
/**
 The home page's scroll spy: on scroll, the section the reader is in becomes "current" and the
 navigation links pointing at it are highlighted.
 */
module ActiveNav {

  /** A `section[id]`: its id, `offsetTop` and `clientHeight`. */
  datatype Section = Section(id: string, offsetTop: int, height: int)

  /** How far above a section's top the reader already counts as inside it. */
  const HeaderOffset := 100

  /** The scroll position lies in the section's band `[top - 100, top - 100 + height)`. */
  predicate InView(scrollY: int, s: Section) {
    var top := s.offsetTop - HeaderOffset;
    top <= scrollY < top + s.height
  }

  /** `current` is the id of the last section in document order whose band holds the scroll
      position, or the empty string if there is none. */
  ghost predicate IsCurrent(scrollY: int, sections: seq<Section>, current: string) {
    if exists k :: 0 <= k < |sections| && InView(scrollY, sections[k]) then
      exists k :: LastInView(scrollY, sections, k) && current == sections[k].id
    else
      current == ""
  }

  /** Section `k` is in view and no later one is. */
  ghost predicate LastInView(scrollY: int, sections: seq<Section>, k: int) {
    && 0 <= k < |sections| && InView(scrollY, sections[k])
    && forall j :: k < j < |sections| ==> !InView(scrollY, sections[j])
  }

  /** `updateActiveNavigation`: walks the sections in order, remembering the last one in view,
      then clears every link and marks the ones whose `href` is "#" followed by that id. */
  method UpdateActiveNavigation(scrollY: int, sections: seq<Section>, hrefs: seq<string>)
    returns (current: string, active: seq<bool>)
    ensures IsCurrent(scrollY, sections, current)
    ensures |active| == |hrefs|
    ensures forall i :: 0 <= i < |hrefs| ==> (active[i] <==> hrefs[i] == "#" + current)
    ensures (forall k :: 0 <= k < |sections| ==> !InView(scrollY, sections[k])) ==>
      forall i :: 0 <= i < |hrefs| ==> (active[i] <==> hrefs[i] == "#")
  {
    current := "";
    ghost var last := -1;
    var k := 0;
    while k < |sections|
      invariant 0 <= k <= |sections|
      invariant -1 <= last < k
      invariant last == -1 ==> current == "" && forall j :: 0 <= j < k ==> !InView(scrollY, sections[j])
      invariant last >= 0 ==> InView(scrollY, sections[last]) && current == sections[last].id
      invariant forall j :: last < j < k ==> !InView(scrollY, sections[j])
    {
      if InView(scrollY, sections[k]) {
        current := sections[k].id;
        last := k;
      }
      k := k + 1;
    }
    if last >= 0 {
      assert LastInView(scrollY, sections, last);
    }
    active := [];
    var i := 0;
    while i < |hrefs|
      invariant 0 <= i <= |hrefs|
      invariant |active| == i
      invariant forall j :: 0 <= j < i ==> (active[j] <==> hrefs[j] == "#" + current)
    {
      active := active + [hrefs[i] == "#" + current];
      i := i + 1;
    }
    if last == -1 {
      assert "#" + current == "#";
    }
  }
}

=== FILE: bi_page.dfy ===
/**
 The BI projects page: the project modal with its `isModalOpen` flag, the Escape handler, and the
 category filter buttons. This page has no mobile menu, so the modal is the only writer of the
 body's scroll lock.
 */
module BiPage {
  import opened Wrappers
  import opened BiProjects
  import opened BiRender

  /** Whether the page has `#projectModal` and `#modalBody`, the modal's `active` class and body,
      `isModalOpen`, and the body's scroll lock. */
  datatype Modal = Modal(
    hasModal: bool,
    hasBody: bool,
    active: bool,
    body: seq<Block>,
    isOpen: bool,
    scrollLocked: bool)

  /** Class, flag and lock agree: the invariant every handler of this page keeps. */
  predicate InSync(m: Modal) {
    m.active == m.isOpen && m.scrollLocked == m.isOpen
  }

  /** `openProjectModal(id)`: without the container or the body, or for an unknown id, nothing
      changes; otherwise the project is rendered into the body, the modal activated, the flag set
      and scroll locked. */
  function Open(m: Modal, id: string): (r: Modal)
    ensures !(m.hasModal && m.hasBody && id in Ids) ==> r == m
    ensures m.hasModal && m.hasBody && id in Ids ==>
      && r.active && r.isOpen && r.scrollLocked
      && r.body == Render(GetProjectData(id).value)
      && Recover(r.body) == GetProjectData(id)
      && r.hasModal == m.hasModal && r.hasBody == m.hasBody
  {
    if !m.hasModal || !m.hasBody then m
    else
      match GetProjectData(id)
      case None => m
      case Some(p) =>
        RenderRecover(p);
        m.(body := Render(p), active := true, isOpen := true, scrollLocked := true)
  }

  /** `closeProjectModal`: with the container present the modal is deactivated, the flag cleared
      and scroll unlocked; without it nothing changes. */
  function Close(m: Modal): (r: Modal)
    ensures !m.hasModal ==> r == m
    ensures m.hasModal ==> !r.active && !r.isOpen && !r.scrollLocked && r.body == m.body
  {
    if m.hasModal then m.(active := false, isOpen := false, scrollLocked := false) else m
  }

  /** `keydown`: only Escape while `isModalOpen` closes. */
  function KeyDown(m: Modal, key: string): (r: Modal)
    ensures !(key == "Escape" && m.isOpen) ==> r == m
    ensures key == "Escape" && m.isOpen && m.hasModal ==> !r.isOpen && !r.scrollLocked
    ensures key == "Escape" && m.isOpen ==> r == Close(m)
  {
    if key == "Escape" && m.isOpen then Close(m) else m
  }

  /** Opening, closing and Escape keep class, flag and scroll lock in agreement. */
  lemma HandlersKeepInSync(m: Modal, id: string, key: string)
    requires InSync(m)
    ensures InSync(Open(m, id)) && InSync(Close(m)) && InSync(KeyDown(m, key))
  {
  }

  /** Closing is idempotent, and Escape on a closed modal changes nothing. */
  lemma CloseIdempotent(m: Modal, key: string)
    ensures Close(Close(m)) == Close(m)
    ensures !m.isOpen ==> KeyDown(m, key) == m
  {
  }

  /** Opening two projects in a row leaves one open modal showing the second. */
  lemma OpenTwice(m: Modal, a: string, b: string)
    requires m.hasModal && m.hasBody && a in Ids && b in Ids
    ensures Open(Open(m, a), b) == Open(m, b)
    ensures Recover(Open(Open(m, a), b).body) == GetProjectData(b)
  {
  }

  // ----- Category filter -----

  /** A project card: its `data-category` (absent when the attribute is missing) and whether it is
      displayed. */
  datatype Card = Card(category: Option<string>, shown: bool)

  /** The filter buttons' `data-filter` values and `active` classes, the cards, and `currentFilter`. */
  datatype Filters = Filters(
    buttons: seq<Option<string>>,
    active: seq<bool>,
    cards: seq<Card>,
    current: Option<string>)

  /** A card passes the filter when the filter is "all" or equals its category (two missing
      attributes compare equal, as `null === null` does). */
  predicate Passes(filter: Option<string>, category: Option<string>) {
    filter == Some("all") || category == filter
  }

  /** `filterProjects(filter, cards)`: each card's visibility is recomputed from the filter. */
  function FilterCards(filter: Option<string>, cards: seq<Card>): (r: seq<Card>)
    ensures |r| == |cards|
    ensures forall k :: 0 <= k < |cards| ==> r[k].category == cards[k].category
    ensures forall k :: 0 <= k < |cards| ==> (r[k].shown <==> filter == Some("all") || cards[k].category == filter)
  {
    seq(|cards|, k requires 0 <= k < |cards| => cards[k].(shown := Passes(filter, cards[k].category)))
  }

  /** Click on filter button `i`: exactly that button becomes active, the cards are filtered by its
      `data-filter`, and the value is recorded as `currentFilter`. */
  function ClickFilter(f: Filters, i: nat): (r: Filters)
    requires i < |f.buttons|
    ensures |r.active| == |f.buttons| && r.buttons == f.buttons
    ensures forall j :: 0 <= j < |f.buttons| ==> (r.active[j] <==> j == i)
    ensures r.current == f.buttons[i]
    ensures r.cards == FilterCards(f.buttons[i], f.cards)
  {
    var filter := f.buttons[i];
    Filters(f.buttons, seq(|f.buttons|, j => j == i), FilterCards(filter, f.cards), filter)
  }

  /** Clicking the same button twice is the same as clicking it once. */
  lemma ClickFilterIdempotent(f: Filters, i: nat)
    requires i < |f.buttons|
    ensures ClickFilter(ClickFilter(f, i), i) == ClickFilter(f, i)
  {
  }

  /** The "all" button shows every card, whatever its category or lack of one. */
  lemma AllShowsEverything(f: Filters, i: nat)
    requires i < |f.buttons| && f.buttons[i] == Some("all")
    ensures forall k :: 0 <= k < |f.cards| ==> ClickFilter(f, i).cards[k].shown
  {
  }
}

=== FILE: bi_projects.dfy ===
/**
 The BI projects page's project registry: four fixed records, looked up by id.
 */
module BiProjects {
  import opened Wrappers

  /** A project as the modal renders it; `images` is absent for projects without screenshots. */
  datatype Project = Project(
    title: string,
    category: string,
    description: string,
    challenge: string,
    solution: string,
    features: seq<string>,
    technologies: seq<string>,
    results: seq<string>,
    images: Option<seq<string>>)

  const Ids: set<string> := {"toners", "maquinas", "dashboard-vendas", "relatorio-financeiro"}

  const Toners := Project(
    "Dashboard de Monitoramento de Toners",
    "DASHBOARD OPERACIONAL",
    "Sistema completo de monitoramento preventivo de níveis de toner em impressoras corporativas, desenvolvido para otimizar a gestão de suprimentos e reduzir interrupções operacionais.",
    "A empresa enfrentava constantes interrupções na impressão devido ao esgotamento inesperado de toners, causando perda de produtividade e aumento de custos operacionais.",
    "Desenvolvemos um dashboard em Power BI que monitora os níveis de toner em tempo real, com alertas preventivos e sistema de priorização automática para reposição.",
    [ "Monitoramento em tempo real dos níveis de toner",
      "Sistema de alertas preventivos configuráveis",
      "Priorização automática baseada em criticidade",
      "Histórico de consumo e previsão de necessidades",
      "Integração com sistema de compras",
      "Relatórios de economia e eficiência" ],
    ["Power BI", "DAX", "SQL Server", "Power Query", "Excel"],
    [ "Redução de 40% nos incidentes por falta de toner",
      "Economia de 25% nos custos de suprimentos",
      "Melhoria de 60% na eficiência do processo de reposição",
      "ROI de 300% em 6 meses" ],
    Some([ "images/toners-dashboard-01.jpg",
           "images/toners-dashboard-02.jpg",
           "images/toners-dashboard-03.jpg" ]))

  const Maquinas := Project(
    "BI - Controle de Máquinas",
    "ANÁLISE OPERACIONAL",
    "Sistema abrangente de Business Intelligence para análise de conformidade e controle operacional de empilhadeiras, proporcionando visibilidade total sobre performance, manutenção e segurança.",
    "Falta de visibilidade sobre a conformidade operacional das empilhadeiras, resultando em falhas não previstas, custos elevados de manutenção e riscos de segurança.",
    "Implementamos uma solução de BI que centraliza dados operacionais, analisa padrões de falhas e gera insights para manutenção preditiva e controle de conformidade.",
    [ "Dashboard de conformidade operacional",
      "Análise preditiva de falhas",
      "Controle de manutenções preventivas",
      "Indicadores de performance por equipamento",
      "Relatórios de segurança e conformidade",
      "Alertas automáticos para anomalias" ],
    ["Power BI", "Power Query", "Excel", "SQL", "Data Analysis"],
    [ "Redução de 30% nas falhas não programadas",
      "Aumento de 95% na conformidade operacional",
      "Melhoria de 45% na eficiência de manutenção",
      "Redução de 20% nos custos operacionais" ],
    Some([ "images/maquinas-dashboard-01.jpg",
           "images/maquinas-dashboard-02.jpg" ]))

  const DashboardVendas := Project(
    "Dashboard de Vendas",
    "DASHBOARD COMERCIAL",
    "Dashboard executivo para análise completa de performance comercial, incluindo métricas de vendas, acompanhamento de metas e previsões estratégicas.",
    "Dispersão de informações comerciais em múltiplas planilhas, dificultando a análise integrada e tomada de decisões estratégicas em tempo hábil.",
    "Criação de dashboard unificado que consolida todas as métricas comerciais, oferecendo visão 360° da performance de vendas com análises preditivas.",
    [ "Visão consolidada de vendas por período",
      "Acompanhamento de metas vs realizado",
      "Análise de performance por vendedor",
      "Ranking de produtos mais vendidos",
      "Previsão de vendas com IA",
      "Alertas de desvio de meta" ],
    ["Power BI", "DAX", "Excel", "SQL Server"],
    [ "Aumento de 25% na precisão de forecasting",
      "Redução de 50% no tempo de análise comercial",
      "Melhoria de 35% no atingimento de metas",
      "Economia de 15 horas/semana da equipe comercial" ],
    None)

  const RelatorioFinanceiro := Project(
    "Relatório Financeiro Automatizado",
    "RELATÓRIO EXECUTIVO",
    "Sistema automatizado de relatórios financeiros com análise de indicadores de performance e rentabilidade, proporcionando visão estratégica das finanças corporativas.",
    "Processo manual de consolidação financeira consumia muito tempo e estava sujeito a erros, atrasando a entrega de informações críticas para a gestão.",
    "Automatização completa do processo de relatórios financeiros com validações automáticas, cálculos padronizados e distribuição automática.",
    [ "Consolidação automática de dados financeiros",
      "Cálculo automatizado de indicadores",
      "Comparativos históricos e benchmarks",
      "Análise de variações e desvios",
      "Relatórios personalizados por stakeholder",
      "Distribuição automática via email" ],
    ["Power BI", "SQL Server", "Python", "DAX"],
    [ "Redução de 80% no tempo de consolidação",
      "Eliminação de 95% dos erros manuais",
      "Entrega de relatórios 3 dias mais cedo",
      "Economia de 20 horas/mês da equipe financeira" ],
    None)

  /** `getProjectData(id)`: the record for one of the four known ids, nothing for any other. */
  function GetProjectData(id: string): (r: Option<Project>)
    ensures r.Some? <==> id in Ids
    ensures id == "toners" ==> r.Some? && r.value.title == "Dashboard de Monitoramento de Toners"
    ensures r.Some? ==> (r.value.images.Some? <==> id in {"toners", "maquinas"})
    ensures r.Some? ==> |r.value.features| == 6 && |r.value.results| == 4
  {
    if id == "toners" then Some(Toners)
    else if id == "maquinas" then Some(Maquinas)
    else if id == "dashboard-vendas" then Some(DashboardVendas)
    else if id == "relatorio-financeiro" then Some(RelatorioFinanceiro)
    else None
  }
}

=== FILE: bi_render.dfy ===
/**
 `generateModalContent` of the BI page, as the sequence of blocks its markup is made of, in
 document order. Every field is inserted as it is, without escaping. `Recover` reads a project back
 from the blocks; `RenderRecover` shows nothing is lost, reordered or duplicated.
 */
module BiRender {
  import opened Wrappers
  import opened BiProjects

  /** The modal's sections, each introduced by a heading. */
  datatype Section = Challenge | Solution | Features | Technologies | Results | Screenshots

  /** The `<h3>` text that introduces a section. */
  function HeadingText(s: Section): string {
    match s
    case Challenge => "🎯 Desafio"
    case Solution => "💡 Solução"
    case Features => "⚡ Funcionalidades"
    case Technologies => "🛠️ Tecnologias"
    case Results => "📈 Resultados"
    case Screenshots => "🖼️ Screenshots"
  }

  /** Each heading text names one section, so a `Heading` block loses nothing of the `<h3>` it
      stands for, and the section order of `RenderSectionOrder` is the order of the texts. */
  lemma HeadingTextInjective(a: Section, b: Section)
    ensures HeadingText(a) == HeadingText(b) <==> a == b
  {
  }

  /** The three kinds of list entry: `<li>` features, technology tags, result items. */
  datatype ItemKind = Feature | Tech | Result

  /** A block of the rendered markup. A gallery item carries its image path (in its `onclick`) and
      the number in its placeholder caption "Visualização n"; the request button carries the
      title (in its `onclick`). */
  datatype Block =
    | CategoryLine(text: string)
    | TitleLine(text: string)
    | DescriptionLine(text: string)
    | Heading(section: Section)
    | Paragraph(text: string)
    | Item(kind: ItemKind, text: string)
    | GalleryItem(image: string, ordinal: nat)
    | GalleryNote
    | RequestAccess(title: string)
    | CloseAction

  /** One entry of `kind` per string, in order (`map(...).join('')`). */
  function Items(xs: seq<string>, kind: ItemKind): (bs: seq<Block>)
    ensures |bs| == |xs|
  {
    if xs == [] then [] else [Item(kind, xs[0])] + Items(xs[1..], kind)
  }

  /** One gallery placeholder per image, numbered from `first`. */
  function Gallery(images: seq<string>, first: nat): (bs: seq<Block>)
    ensures |bs| == |images|
  {
    if images == [] then [] else [GalleryItem(images[0], first)] + Gallery(images[1..], first + 1)
  }

  /** The screenshots section, present whenever `images` is defined, even when it is empty. */
  function GallerySection(images: Option<seq<string>>): seq<Block> {
    match images
    case None => []
    case Some(imgs) => [Heading(Screenshots)] + Gallery(imgs, 1) + [GalleryNote]
  }

  /** The modal header: category, title, description. */
  function Head(p: Project): seq<Block> {
    [CategoryLine(p.category), TitleLine(p.title), DescriptionLine(p.description)]
  }

  /** The challenge and solution sections and the features heading. */
  function Intro(p: Project): seq<Block> {
    [Heading(Challenge), Paragraph(p.challenge), Heading(Solution), Paragraph(p.solution), Heading(Features)]
  }

  /** The request-access and close buttons. */
  function Actions(p: Project): seq<Block> {
    [RequestAccess(p.title), CloseAction]
  }

  function Render(p: Project): seq<Block> {
    Head(p)
    + Intro(p)
    + Items(p.features, Feature)
    + [Heading(Technologies)]
    + Items(p.technologies, Tech)
    + [Heading(Results)]
    + Items(p.results, Result)
    + GallerySection(p.images)
    + Actions(p)
  }

  /** The values `f` selects from `bs`, in order. */
  function Collect<T>(bs: seq<Block>, f: Block -> Option<T>): seq<T> {
    if bs == [] then []
    else
      match f(bs[0])
      case Some(v) => [v] + Collect(bs[1..], f)
      case None => Collect(bs[1..], f)
  }

  function FeatureText(b: Block): Option<string> {
    if b.Item? && b.kind == Feature then Some(b.text) else None
  }

  function TechText(b: Block): Option<string> {
    if b.Item? && b.kind == Tech then Some(b.text) else None
  }

  function ResultText(b: Block): Option<string> {
    if b.Item? && b.kind == Result then Some(b.text) else None
  }

  function HeadingOf(b: Block): Option<Section> {
    if b.Heading? then Some(b.section) else None
  }

  function GalleryImage(b: Block): Option<string> {
    if b.GalleryItem? then Some(b.image) else None
  }

  function GalleryOrdinal(b: Block): Option<nat> {
    if b.GalleryItem? then Some(b.ordinal) else None
  }

  /** Reads a project back from rendered blocks: the header and the two paragraphs from their
      fixed places, the lists by kind, and the images only if a screenshots heading is present. */
  function Recover(bs: seq<Block>): Option<Project> {
    if |bs| >= 7 && bs[0].CategoryLine? && bs[1].TitleLine? && bs[2].DescriptionLine?
       && bs[4].Paragraph? && bs[6].Paragraph?
    then
      Some(Project(
        bs[1].text, bs[0].text, bs[2].text, bs[4].text, bs[6].text,
        Collect(bs, FeatureText), Collect(bs, TechText), Collect(bs, ResultText),
        if Screenshots in Collect(bs, HeadingOf) then Some(Collect(bs, GalleryImage)) else None))
    else
      None
  }

  lemma {:induction false} CollectConcat<T>(a: seq<Block>, b: seq<Block>, f: Block -> Option<T>)
    ensures Collect(a + b, f) == Collect(a, f) + Collect(b, f)
  {
    if a == [] {
      assert a + b == b;
    } else {
      assert (a + b)[0] == a[0];
      assert (a + b)[1..] == a[1..] + b;
      CollectConcat(a[1..], b, f);
      match f(a[0])
      case Some(v) =>
        assert Collect(a + b, f) == [v] + Collect(a[1..] + b, f);
        assert Collect(a, f) == [v] + Collect(a[1..], f);
        assert [v] + (Collect(a[1..], f) + Collect(b, f)) == ([v] + Collect(a[1..], f)) + Collect(b, f);
      case None =>
        assert Collect(a + b, f) == Collect(a[1..] + b, f);
        assert Collect(a, f) == Collect(a[1..], f);
    }
  }

  lemma {:induction false} CollectItems(xs: seq<string>, kind: ItemKind, f: Block -> Option<string>)
    requires forall x :: f(Item(kind, x)) == Some(x)
    ensures Collect(Items(xs, kind), f) == xs
  {
    if xs != [] {
      CollectItems(xs[1..], kind, f);
    }
  }

  lemma {:induction false} CollectItemsNone<T>(xs: seq<string>, kind: ItemKind, f: Block -> Option<T>)
    requires forall x :: f(Item(kind, x)).None?
    ensures Collect(Items(xs, kind), f) == []
  {
    if xs != [] {
      CollectItemsNone(xs[1..], kind, f);
    }
  }

  lemma {:induction false} CollectGalleryNone<T>(images: seq<string>, first: nat, f: Block -> Option<T>)
    requires forall x, n :: f(GalleryItem(x, n)).None?
    ensures Collect(Gallery(images, first), f) == []
  {
    if images != [] {
      CollectGalleryNone(images[1..], first + 1, f);
    }
  }

  lemma {:induction false} GalleryImages(images: seq<string>, first: nat)
    ensures Collect(Gallery(images, first), GalleryImage) == images
  {
    if images != [] {
      GalleryImages(images[1..], first + 1);
    }
  }

  lemma {:induction false} CollectNoneAll<T>(bs: seq<Block>, f: Block -> Option<T>)
    requires forall i :: 0 <= i < |bs| ==> f(bs[i]).None?
    ensures Collect(bs, f) == []
  {
    if bs != [] {
      CollectNoneAll(bs[1..], f);
    }
  }

  /** `Collect` distributes over the pieces `Render` is made of. */
  lemma CollectRender<T>(p: Project, f: Block -> Option<T>)
    ensures Collect(Render(p), f) ==
      Collect(Head(p), f)
      + Collect(Intro(p), f)
      + Collect(Items(p.features, Feature), f)
      + Collect([Heading(Technologies)], f)
      + Collect(Items(p.technologies, Tech), f)
      + Collect([Heading(Results)], f)
      + Collect(Items(p.results, Result), f)
      + Collect(GallerySection(p.images), f)
      + Collect(Actions(p), f)
  {
    var h := Head(p);
    var c := Intro(p);
    var x1 := h + c;
    var x2 := x1 + Items(p.features, Feature);
    var x3 := x2 + [Heading(Technologies)];
    var x4 := x3 + Items(p.technologies, Tech);
    var x5 := x4 + [Heading(Results)];
    var x6 := x5 + Items(p.results, Result);
    var x7 := x6 + GallerySection(p.images);
    assert Render(p) == x7 + Actions(p);
    CollectConcat(x7, Actions(p), f);
    CollectConcat(x6, GallerySection(p.images), f);
    CollectConcat(x5, Items(p.results, Result), f);
    CollectConcat(x4, [Heading(Results)], f);
    CollectConcat(x3, Items(p.technologies, Tech), f);
    CollectConcat(x2, [Heading(Technologies)], f);
    CollectConcat(x1, Items(p.features, Feature), f);
    CollectConcat(h, c, f);
  }

  /** `f` picks out the text of the entries of `kind` and nothing else. */
  ghost predicate SelectsItems(f: Block -> Option<string>, kind: ItemKind) {
    && (forall x :: f(Item(kind, x)) == Some(x))
    && (forall k, x :: k != kind ==> f(Item(k, x)).None?)
    && (forall b: Block :: !b.Item? ==> f(b).None?)
  }

  lemma {:induction false} GallerySectionNone<T>(images: Option<seq<string>>, f: Block -> Option<T>)
    requires forall b: Block :: !b.Item? ==> f(b).None?
    ensures Collect(GallerySection(images), f) == []
  {
    if images.Some? {
      var imgs := images.value;
      CollectConcat([Heading(Screenshots)] + Gallery(imgs, 1), [GalleryNote], f);
      CollectConcat([Heading(Screenshots)], Gallery(imgs, 1), f);
      CollectGalleryNone(imgs, 1, f);
      CollectNoneAll([Heading(Screenshots)], f);
      CollectNoneAll([GalleryNote], f);
    }
  }

  /** Every fixed piece of the rendering selects nothing under `f`. */
  lemma FixedPiecesNone<T>(p: Project, f: Block -> Option<T>)
    requires forall b: Block :: !b.Item? ==> f(b).None?
    ensures Collect(Head(p), f) == [] && Collect(Intro(p), f) == []
    ensures Collect([Heading(Technologies)], f) == [] && Collect([Heading(Results)], f) == []
    ensures Collect(GallerySection(p.images), f) == [] && Collect(Actions(p), f) == []
  {
    CollectNoneAll(Head(p), f);
    CollectNoneAll(Intro(p), f);
    CollectNoneAll([Heading(Technologies)], f);
    CollectNoneAll([Heading(Results)], f);
    CollectNoneAll(Actions(p), f);
    GallerySectionNone(p.images, f);
  }

  lemma RenderFeatures(p: Project, f: Block -> Option<string>)
    requires SelectsItems(f, Feature)
    ensures Collect(Render(p), f) == p.features
  {
    CollectRender(p, f);
    FixedPiecesNone(p, f);
    CollectItems(p.features, Feature, f);
    CollectItemsNone(p.technologies, Tech, f);
    CollectItemsNone(p.results, Result, f);
  }

  lemma RenderTechs(p: Project, f: Block -> Option<string>)
    requires SelectsItems(f, Tech)
    ensures Collect(Render(p), f) == p.technologies
  {
    CollectRender(p, f);
    FixedPiecesNone(p, f);
    CollectItemsNone(p.features, Feature, f);
    CollectItems(p.technologies, Tech, f);
    CollectItemsNone(p.results, Result, f);
  }

  lemma RenderResults(p: Project, f: Block -> Option<string>)
    requires SelectsItems(f, Result)
    ensures Collect(Render(p), f) == p.results
  {
    CollectRender(p, f);
    FixedPiecesNone(p, f);
    CollectItemsNone(p.features, Feature, f);
    CollectItemsNone(p.technologies, Tech, f);
    CollectItems(p.results, Result, f);
  }

  /** Entries of each kind, wherever they occur in the rendering, are exactly that list of the
      project: one per element, in order, verbatim. */
  lemma RenderItems(p: Project)
    ensures Collect(Render(p), FeatureText) == p.features
    ensures Collect(Render(p), TechText) == p.technologies
    ensures Collect(Render(p), ResultText) == p.results
  {
    RenderFeatures(p, FeatureText);
    RenderTechs(p, TechText);
    RenderResults(p, ResultText);
  }

  lemma {:induction false} GalleryOrdinals(images: seq<string>, first: nat)
    ensures Collect(Gallery(images, first), GalleryOrdinal) == seq(|images|, k => first + k)
  {
    if images != [] {
      GalleryOrdinals(images[1..], first + 1);
    }
  }

  /** A selector that ignores everything but gallery placeholders sees, in the whole rendering,
      only what it sees in the gallery. */
  lemma RenderGalleryOnly<T>(p: Project, f: Block -> Option<T>)
    requires forall b: Block :: !b.GalleryItem? ==> f(b).None?
    ensures p.images.None? ==> Collect(Render(p), f) == []
    ensures p.images.Some? ==> Collect(Render(p), f) == Collect(Gallery(p.images.value, 1), f)
  {
    CollectRender(p, f);
    CollectNoneAll(Head(p), f);
    CollectNoneAll(Intro(p), f);
    CollectNoneAll([Heading(Technologies)], f);
    CollectNoneAll([Heading(Results)], f);
    CollectNoneAll(Actions(p), f);
    CollectItemsNone(p.features, Feature, f);
    CollectItemsNone(p.technologies, Tech, f);
    CollectItemsNone(p.results, Result, f);
    if p.images.Some? {
      var imgs := p.images.value;
      CollectConcat([Heading(Screenshots)] + Gallery(imgs, 1), [GalleryNote], f);
      CollectConcat([Heading(Screenshots)], Gallery(imgs, 1), f);
      CollectNoneAll([Heading(Screenshots)], f);
      CollectNoneAll([GalleryNote], f);
    }
  }

  /** The gallery appears exactly when `images` is defined (an empty list still renders it), with
      one placeholder per image numbered 1, 2, ... in order. */
  lemma RenderGallery(p: Project)
    ensures p.images.None? ==> Collect(Render(p), GalleryImage) == [] && Collect(Render(p), GalleryOrdinal) == []
    ensures p.images.Some? ==>
      && Collect(Render(p), GalleryImage) == p.images.value
      && Collect(Render(p), GalleryOrdinal) == seq(|p.images.value|, k => k + 1)
  {
    RenderGalleryOnly(p, GalleryImage);
    RenderGalleryOnly(p, GalleryOrdinal);
    if p.images.Some? {
      GalleryImages(p.images.value, 1);
      GalleryOrdinals(p.images.value, 1);
    }
  }

  lemma IntroHeadings(p: Project)
    ensures Collect(Intro(p), HeadingOf) == [Challenge, Solution, Features]
  {
    var intro := Intro(p);
    assert Collect(intro[4..], HeadingOf) == [Features];
    assert Collect(intro[3..], HeadingOf) == [Features];
    assert Collect(intro[2..], HeadingOf) == [Solution, Features];
    assert Collect(intro[1..], HeadingOf) == [Solution, Features];
  }

  lemma GallerySectionHeadings(images: Option<seq<string>>)
    ensures Collect(GallerySection(images), HeadingOf) == if images.Some? then [Screenshots] else []
  {
    if images.Some? {
      var imgs := images.value;
      CollectConcat([Heading(Screenshots)] + Gallery(imgs, 1), [GalleryNote], HeadingOf);
      CollectConcat([Heading(Screenshots)], Gallery(imgs, 1), HeadingOf);
      CollectGalleryNone(imgs, 1, HeadingOf);
      CollectNoneAll([GalleryNote], HeadingOf);
    }
  }

  /** The sections follow in a fixed order: challenge, solution, features, technologies, results,
      then the screenshots section exactly when the project has `images`. */
  lemma RenderSectionOrder(p: Project)
    ensures Collect(Render(p), HeadingOf) ==
      [Challenge, Solution, Features, Technologies, Results] + (if p.images.Some? then [Screenshots] else [])
  {
    CollectRender(p, HeadingOf);
    CollectNoneAll(Head(p), HeadingOf);
    CollectNoneAll(Actions(p), HeadingOf);
    CollectItemsNone(p.features, Feature, HeadingOf);
    CollectItemsNone(p.technologies, Tech, HeadingOf);
    CollectItemsNone(p.results, Result, HeadingOf);
    IntroHeadings(p);
    GallerySectionHeadings(p.images);
  }

  /** The header comes first, in the order category, title, description. */
  lemma RenderHeaderFirst(p: Project)
    ensures Render(p)[..3] == [CategoryLine(p.category), TitleLine(p.title), DescriptionLine(p.description)]
    ensures Render(p)[4] == Paragraph(p.challenge) && Render(p)[6] == Paragraph(p.solution)
  {
    var r := Render(p);
    var rest := r[|Head(p) + Intro(p)|..];
    assert r == (Head(p) + Intro(p)) + rest;
  }

  /** Rendering loses nothing: every field of the project, lists and their order included, can be
      read back verbatim from the blocks. */
  lemma RenderRecover(p: Project)
    ensures Recover(Render(p)) == Some(p)
  {
    RenderHeaderFirst(p);
    RenderItems(p);
    RenderGallery(p);
    RenderSectionOrder(p);
    var hs := Collect(Render(p), HeadingOf);
    if p.images.None? {
      assert hs == [Challenge, Solution, Features, Technologies, Results];
      assert Screenshots !in hs;
    } else {
      assert hs[5] == Screenshots;
    }
  }
}

=== FILE: carousel.dfy ===
/**
 The certifications slider of the home page: a current index into the list of certification items,
 moved by the next/previous buttons and by the auto-advance timer, with exactly the item at the
 index marked active.
 */
module Carousel {
  import opened Wrappers

  /** JavaScript's `%`: the remainder takes the sign of the dividend (truncating division). */
  function JsRem(a: int, b: int): (r: int)
    requires b != 0
    ensures a >= 0 ==> 0 <= r < (if b > 0 then b else -b)
    ensures a >= 0 && b > 0 ==> r == a % b
    ensures a < 0 ==> r <= 0
  {
    var m := if b > 0 then b else -b;
    if a >= 0 then a % m else -((-a) % m)
  }

  /** `count` certification items, `index` the slider's `currentCertification`. */
  datatype Slider = Slider(count: nat, index: int)

  predicate Valid(s: Slider) {
    0 < s.count && 0 <= s.index < s.count
  }

  /** `initCertificationsSlider`: with no items nothing is wired (None); otherwise the slider
      starts at the first item. */
  function Init(count: nat): (r: Option<Slider>)
    ensures r.None? <==> count == 0
    ensures r.Some? ==> Valid(r.value) && r.value.index == 0 && r.value.count == count
  {
    if count == 0 then None else Some(Slider(count, 0))
  }

  /** `showCertification(index)`: the `active` class of each of the `count` items. */
  function Show(count: nat, index: int): (active: seq<bool>)
    ensures |active| == count
  {
    seq(count, i => i == index)
  }

  /** The positions marked active. */
  function ActiveSet(active: seq<bool>): set<nat> {
    set i: nat | i < |active| && active[i]
  }

  /** Exactly one item is active after `showCertification` with an index in range. */
  lemma ExactlyOneActive(s: Slider)
    requires Valid(s)
    ensures ActiveSet(Show(s.count, s.index)) == {s.index as nat}
  {
  }

  /** `nextCertification`: one step forward, wrapping from the last item to the first. */
  function Next(s: Slider): (r: Slider)
    requires Valid(s)
    ensures Valid(r) && r.count == s.count
    ensures r.index == (if s.index == s.count - 1 then 0 else s.index + 1)
  {
    s.(index := JsRem(s.index + 1, s.count))
  }

  /** `prevCertification`: one step back, wrapping from the first item to the last. */
  function Prev(s: Slider): (r: Slider)
    requires Valid(s)
    ensures Valid(r) && r.count == s.count
    ensures r.index == (if s.index == 0 then s.count - 1 else s.index - 1)
  {
    s.(index := JsRem(s.index - 1 + s.count, s.count))
  }

  /** Previous undoes next and next undoes previous. */
  lemma PrevNextInverse(s: Slider)
    requires Valid(s)
    ensures Prev(Next(s)) == s
    ensures Next(Prev(s)) == s
  {
  }

  /** `k` presses of next (or ticks of the auto-advance timer). */
  function Advance(s: Slider, k: nat): (r: Slider)
    requires Valid(s)
    ensures Valid(r) && r.count == s.count
  {
    if k == 0 then s else Next(Advance(s, k - 1))
  }

  /** After `k` steps the slider is `k` places further on, modulo the number of items. */
  lemma {:induction false} AdvanceIndex(s: Slider, k: nat)
    requires Valid(s)
    ensures Advance(s, k).index == (s.index + k) % s.count
  {
    if k > 0 {
      AdvanceIndex(s, k - 1);
      var prev := Advance(s, k - 1);
      assert Advance(s, k) == Next(prev);
      ModStep(s.index + k - 1, s.count);
    }
  }

  /** Euclidean remainder is determined by any quotient/remainder decomposition. */
  lemma ModUnique(a: int, n: int, q: int, r: int)
    requires 0 < n && 0 <= r < n && a == q * n + r
    ensures a % n == r
  {
    var d := q - a / n;
    assert d * n == a % n - r by {
      assert d * n == q * n - (a / n) * n;
    }
    MulSign(d, n);
  }

  lemma {:induction false} MulSign(d: int, n: int)
    requires 0 < n
    ensures d >= 1 ==> d * n >= n
    ensures d <= -1 ==> d * n <= -n
    decreases if d < 0 then -d else d
  {
    if d > 1 {
      MulSign(d - 1, n);
      assert d * n == (d - 1) * n + n;
    } else if d < -1 {
      MulSign(d + 1, n);
      assert d * n == (d + 1) * n - n;
    }
  }

  lemma ModStep(a: nat, n: nat)
    requires 0 < n
    ensures (if a % n == n - 1 then 0 else a % n + 1) == (a + 1) % n
  {
    var q := a / n;
    assert a == q * n + a % n;
    if a % n == n - 1 {
      assert a + 1 == (q + 1) * n + 0;
      ModUnique(a + 1, n, q + 1, 0);
    } else {
      ModUnique(a + 1, n, q, a % n + 1);
    }
  }

  /** The auto-advance timer brings the slider back to where it started after one full cycle. */
  lemma FullCycle(s: Slider)
    requires Valid(s)
    ensures Advance(s, s.count) == s
  {
    AdvanceIndex(s, s.count);
    ModUnique(s.index + s.count, s.count, 1, s.index);
  }
}

=== FILE: contact_form.dfy ===
/**
 The home page's contact form: the per-field validator run on blur and on submit, and the submit
 handler as a two-step state machine. `Submit` is the synchronous part up to the network call;
 `Settle` is what happens when the request to the form relay resolves (`Ok`), resolves with a
 non-success status (`NotOk`) or throws (`Thrown`). The request itself is not modelled; the form
 only counts how many it has issued. Typing into a field is not a step of the model: `OnInput` is
 the page's `input` handler only, so field values are those the form was built with (`Init`) or
 the defaults a successful send restores.
 */
module ContactForm {
  import opened Wrappers
  import opened JsText
  import opened EmailPattern

  const RequiredMessage := "Este campo é obrigatório."
  const EmailMessage := "Por favor, insira um e-mail válido."
  const NameMessage := "Nome deve ter pelo menos 2 caracteres."
  const TextareaMessage := "Mensagem deve ter pelo menos 10 caracteres."

  const FixErrorsText := "Por favor, corrija os erros no formulário."
  const SentText := "✅ Mensagem enviada com sucesso! Em breve entrarei em contato."
  const FailedText := "❌ Erro ao enviar. Tente novamente."
  const ThrownPrefix := "❌ Erro: "

  /** Inner markup the submit button shows while the request is in flight. */
  const SendingLabel := "<span>ENVIANDO...</span><i class=\"btn-icon\">⏳</i>"

  /** An `input` or `textarea` of the form. `kind` is the element's `type` property (a textarea's
      is "textarea"), `defaultValue` what `form.reset()` restores, and `error` the text of the
      field's `.field-error` element, if it has one. */
  datatype Field = Field(
    kind: string,
    name: string,
    isTextarea: bool,
    value: string,
    defaultValue: string,
    error: Option<string>)

  datatype Verdict = Valid | Invalid(message: string)

  /** The fewest characters a trimmed value of this field may have. */
  function MinLength(kind: string, name: string, isTextarea: bool): nat {
    if kind == "email" then 1
    else if kind == "text" then (if name == "nome" then 2 else 1)
    else if isTextarea then 10
    else 1
  }

  /** The message a non-empty value that fails its field's rule gets. */
  function RuleMessage(kind: string): string {
    if kind == "email" then EmailMessage
    else if kind == "text" then NameMessage
    else TextareaMessage
  }

  /** `validateField` on a value that has already been trimmed: empty values are always refused
      with the same message, whatever the field; otherwise the field must reach its minimum
      length and, for e-mail fields, match the e-mail pattern. */
  function ValidateTrimmed(value: string, kind: string, name: string, isTextarea: bool): (v: Verdict)
    ensures value == [] ==> v == Invalid(RequiredMessage)
    ensures v.Valid? <==> |value| >= MinLength(kind, name, isTextarea) && (kind == "email" ==> RegexMatches(value))
    ensures v.Invalid? && value != [] ==> v.message == RuleMessage(kind)
  {
    ShapeIffRegex(value);
    if value == [] then Invalid(RequiredMessage)
    else if kind == "email" then
      (if EmailShape(value) then Valid else Invalid(EmailMessage))
    else if kind == "text" then
      (if name == "nome" && |value| < 2 then Invalid(NameMessage) else Valid)
    else if isTextarea && |value| < 10 then Invalid(TextareaMessage)
    else Valid
  }

  /** The verdict `validateField` reaches for a field: its value is trimmed first. */
  function Validate(f: Field): Verdict {
    ValidateTrimmed(Trim(f.value), f.kind, f.name, f.isTextarea)
  }

  /** A field is refused as missing exactly when its value is nothing but white space, whatever
      its kind. */
  lemma RequiredIffBlank(f: Field)
    ensures Validate(f) == Invalid(RequiredMessage) <==> AllSpace(f.value)
  {
    TrimEmptyIff(f.value);
    RuleMessageNotRequired(f.kind);
  }

  lemma RuleMessageNotRequired(kind: string)
    ensures RuleMessage(kind) != RequiredMessage
  {
    assert |RequiredMessage| == 25;
    assert |EmailMessage| == 35 && |NameMessage| == 38 && |TextareaMessage| == 43;
  }

  /** An e-mail field with some non-blank value is accepted exactly when its trimmed value has no
      white space, one '@', something before it, and a '.' strictly inside the part after it. */
  lemma EmailFieldVerdict(f: Field)
    requires f.kind == "email" && !AllSpace(f.value)
    ensures Validate(f).Valid? <==> EmailShape(Trim(f.value))
    ensures Validate(f).Invalid? ==> Validate(f).message == EmailMessage
  {
    TrimEmptyIff(f.value);
    ShapeIffRegex(Trim(f.value));
  }

  /** The error `validateField` leaves on the field: it first clears the old one, then shows the
      new message if the value is refused. */
  function ShowValidation(f: Field): (g: Field)
    ensures g.(error := f.error) == f
    ensures g.error.None? <==> Validate(f).Valid?
    ensures Validate(f).Invalid? ==> g.error == Some(Validate(f).message)
  {
    match Validate(f)
    case Valid => f.(error := None)
    case Invalid(m) => f.(error := Some(m))
  }

  predicate AllValid(fields: seq<Field>) {
    forall k :: 0 <= k < |fields| ==> Validate(fields[k]).Valid?
  }

  datatype Level = Success | Error

  /** A toast shown by `showNotification`. */
  datatype Notice = Notice(level: Level, text: string)

  /** How the request to the form relay settled. */
  datatype Outcome = Ok | NotOk | Thrown(errorMessage: string)

  datatype Button = Button(caption: string, disabled: bool)

  /** The form: its fields, its submit button, the button label saved while a request is in
      flight, the number of requests issued so far and the notifications shown. */
  datatype Form = Form(
    fields: seq<Field>,
    button: Button,
    pending: Option<string>,
    requests: nat,
    notices: seq<Notice>)

  /** A request is in flight exactly while the button is disabled, and then it reads "ENVIANDO...". */
  predicate Consistent(s: Form) {
    && (s.pending.Some? <==> s.button.disabled)
    && (s.pending.Some? ==> s.button.caption == SendingLabel)
  }

  function Init(fields: seq<Field>, caption: string): (s: Form)
    ensures Consistent(s) && s.requests == 0 && s.notices == []
    ensures s.fields == fields && s.button == Button(caption, false) && s.pending.None?
  {
    Form(fields, Button(caption, false), None, 0, [])
  }

  /** `blur` on field `k`: it is validated and its error shown or cleared. */
  function OnBlur(s: Form, k: nat): (r: Form)
    requires k < |s.fields|
    ensures |r.fields| == |s.fields|
    ensures r.fields[k].error.None? <==> Validate(s.fields[k]).Valid?
    ensures r.fields[k] == ShowValidation(s.fields[k])
    ensures r.fields[k].value == s.fields[k].value
    ensures forall j :: 0 <= j < |s.fields| && j != k ==> r.fields[j] == s.fields[j]
    ensures r.(fields := s.fields) == s
  {
    s.(fields := s.fields[k := ShowValidation(s.fields[k])])
  }

  /** `input` on field `k`: its error is cleared and nothing else changes. */
  function OnInput(s: Form, k: nat): (r: Form)
    requires k < |s.fields|
    ensures |r.fields| == |s.fields|
    ensures r.fields[k].error.None?
    ensures forall j :: 0 <= j < |s.fields| && j != k ==> r.fields[j] == s.fields[j]
    ensures r.fields[k].(error := s.fields[k].error) == s.fields[k]
    ensures r.(fields := s.fields) == s
  {
    s.(fields := s.fields[k := s.fields[k].(error := None)])
  }

  /** The submit handler up to the network call. Every field is validated (no short circuit); if
      any is refused no request is issued, the button is left alone and an error notice is shown;
      otherwise the button is disabled with the sending label and one request is issued. A submit
      while the button is disabled is never dispatched. */
  function Submit(s: Form): (r: Form)
    ensures s.button.disabled ==> r == s
    ensures !s.button.disabled ==>
      && |r.fields| == |s.fields|
      && (forall k :: 0 <= k < |s.fields| ==> r.fields[k] == ShowValidation(s.fields[k]))
      && (r.requests == s.requests + 1 <==> AllValid(s.fields))
      && (r.requests == s.requests <==> !AllValid(s.fields))
    ensures !s.button.disabled && !AllValid(s.fields) ==>
      r.button == s.button && r.pending == s.pending && r.notices == s.notices + [Notice(Error, FixErrorsText)]
    ensures !s.button.disabled && AllValid(s.fields) ==>
      r.button == Button(SendingLabel, true) && r.pending == Some(s.button.caption) && r.notices == s.notices
  {
    if s.button.disabled then s
    else
      var checked := seq(|s.fields|, k requires 0 <= k < |s.fields| => ShowValidation(s.fields[k]));
      if !AllValid(s.fields) then
        s.(fields := checked, notices := s.notices + [Notice(Error, FixErrorsText)])
      else
        s.(fields := checked, button := Button(SendingLabel, true), pending := Some(s.button.caption),
           requests := s.requests + 1)
  }

  /** What `form.reset()` followed by clearing every field error does to one field. */
  function ResetField(f: Field): (g: Field)
    ensures g.value == f.defaultValue && g.error.None?
    ensures g.(value := f.value, error := f.error) == f
  {
    f.(value := f.defaultValue, error := None)
  }

  /** The request settles. On every outcome the button gets its saved label back and is
      re-enabled; only on `Ok` is the form reset and its errors cleared. */
  function Settle(s: Form, o: Outcome): (r: Form)
    ensures s.pending.None? ==> r == s
    ensures s.pending.Some? ==> r.button == Button(s.pending.value, false) && r.pending.None?
    ensures r.requests == s.requests
    ensures !o.Ok? ==> r.fields == s.fields
    ensures s.pending.Some? && o.Ok? ==>
      |r.fields| == |s.fields| && forall k :: 0 <= k < |s.fields| ==> r.fields[k] == ResetField(s.fields[k])
    ensures s.pending.Some? ==> r.notices == s.notices + [
      match o
      case Ok => Notice(Success, SentText)
      case NotOk => Notice(Error, FailedText)
      case Thrown(m) => Notice(Error, ThrownPrefix + m)]
  {
    if s.pending.None? then s
    else
      var restored := s.(button := Button(s.pending.value, false), pending := None);
      match o
      case Ok =>
        restored.(fields := seq(|s.fields|, k requires 0 <= k < |s.fields| => ResetField(s.fields[k])),
                  notices := s.notices + [Notice(Success, SentText)])
      case NotOk => restored.(notices := s.notices + [Notice(Error, FailedText)])
      case Thrown(m) => restored.(notices := s.notices + [Notice(Error, ThrownPrefix + m)])
  }

  /** Submitting and settling keep the in-flight / disabled-button correspondence. */
  lemma ConsistentPreserved(s: Form, o: Outcome)
    requires Consistent(s)
    ensures Consistent(Submit(s))
    ensures Consistent(Settle(s, o))
  {
  }

  /** A submit that issues a request, followed by its settlement with any outcome, leaves the
      button exactly as it was before the submit: the disabled state never leaks. */
  lemma SubmitSettleRestoresButton(s: Form, o: Outcome)
    requires Consistent(s) && !s.button.disabled && AllValid(s.fields)
    ensures Submit(s).button.disabled
    ensures Settle(Submit(s), o).button == s.button
    ensures Settle(Submit(s), o).requests == s.requests + 1
  {
  }

  /** A field holding only white space blocks the request and shows the required-field message. */
  lemma BlankFieldBlocksRequest(s: Form, k: nat)
    requires !s.button.disabled && k < |s.fields| && AllSpace(s.fields[k].value)
    ensures Submit(s).requests == s.requests
    ensures Submit(s).fields[k].error == Some(RequiredMessage)
    ensures Submit(s).notices == s.notices + [Notice(Error, FixErrorsText)]
  {
    RequiredIffBlank(s.fields[k]);
  }

  /** After a successful send no field shows an error and every value is back to its default. */
  lemma SuccessClearsErrors(s: Form)
    requires Consistent(s) && !s.button.disabled && AllValid(s.fields)
    ensures var r := Settle(Submit(s), Ok);
      && !r.button.disabled
      && |r.fields| == |s.fields|
      && forall k :: 0 <= k < |s.fields| ==> r.fields[k].error.None? && r.fields[k].value == s.fields[k].defaultValue
  {
  }
}

=== FILE: email_pattern.dfy ===
/**
 The contact form's e-mail pattern `^[^\s@]+@[^\s@]+\.[^\s@]+$`, given twice: once as what the
 regular expression matches (three non-empty runs of characters that are neither white space nor
 '@', separated by '@' and a literal '.'), and once as the executable shape test the validator
 uses. `ShapeIffRegex` proves the two agree on every string.
 */
module EmailPattern {
  import opened JsText

  /** The class `[^\s@]`. */
  predicate PlainChar(c: char) {
    !IsSpace(c) && c != '@'
  }

  /** `[^\s@]+` spanning the whole of `s`. */
  predicate PlainRun(s: string) {
    |s| > 0 && forall k :: 0 <= k < |s| ==> PlainChar(s[k])
  }

  /** The regular expression matches `s` with its '@' at `i` and its literal '.' at `j`. */
  predicate RegexSplit(s: string, i: int, j: int) {
    && 0 <= i < j < |s|
    && s[i] == '@' && s[j] == '.'
    && PlainRun(s[..i]) && PlainRun(s[i + 1..j]) && PlainRun(s[j + 1..])
  }

  /** `/^[^\s@]+@[^\s@]+\.[^\s@]+$/.test(s)`: the anchored pattern matches for some placement. */
  ghost predicate RegexMatches(s: string) {
    exists i, j :: RegexSplit(s, i, j)
  }

  /** The domain has a '.' that is neither its first nor its last character. */
  predicate DotInside(d: string) {
    exists m :: 0 < m < |d| - 1 && d[m] == '.'
  }

  /** No white space, exactly one '@', a non-empty local part before it, and a domain after it
      with an inner '.'. */
  predicate EmailShape(s: string) {
    && NoSpace(s)
    && Count(s, '@') == 1
    && exists i :: 0 < i < |s| && s[i] == '@' && DotInside(s[i + 1..])
  }

  lemma RegexImpliesShape(s: string, i: int, j: int)
    requires RegexSplit(s, i, j)
    ensures EmailShape(s)
  {
    forall k | 0 <= k < |s| ensures !IsSpace(s[k]) && (k != i ==> s[k] != '@') {
      if k < i {
        assert s[..i][k] == s[k];
      } else if i < k < j {
        assert s[i + 1..j][k - i - 1] == s[k];
      } else if j < k {
        assert s[j + 1..][k - j - 1] == s[k];
      }
    }
    CountOneAt(s, '@', i);
    var d := s[i + 1..];
    assert d[j - i - 1] == '.';
    assert DotInside(d);
  }

  lemma ShapeImpliesRegex(s: string)
    requires EmailShape(s)
    ensures RegexMatches(s)
  {
    var i :| 0 < i < |s| && s[i] == '@' && DotInside(s[i + 1..]);
    var d := s[i + 1..];
    var m :| 0 < m < |d| - 1 && d[m] == '.';
    var j := i + 1 + m;
    CountOneAt(s, '@', i);
    assert s[j] == d[m];
    forall k | 0 <= k < |s| && k != i ensures PlainChar(s[k]) {
    }
    var local, host, top := s[..i], s[i + 1..j], s[j + 1..];
    forall k | 0 <= k < |local| ensures PlainChar(local[k]) { assert local[k] == s[k]; }
    forall k | 0 <= k < |host| ensures PlainChar(host[k]) { assert host[k] == s[i + 1 + k]; }
    forall k | 0 <= k < |top| ensures PlainChar(top[k]) { assert top[k] == s[j + 1 + k]; }
    assert RegexSplit(s, i, j);
  }

  /** The executable shape test accepts exactly the strings the regular expression matches. */
  lemma ShapeIffRegex(s: string)
    ensures EmailShape(s) <==> RegexMatches(s)
  {
    if RegexMatches(s) {
      var i, j :| RegexSplit(s, i, j);
      RegexImpliesShape(s, i, j);
    }
    if EmailShape(s) {
      ShapeImpliesRegex(s);
    }
  }
}

=== FILE: js_text.dfy ===
/**
 The JavaScript string primitives the contact form relies on: the white-space class shared by
 `String.prototype.trim` and the regular-expression escape `\s` (ECMAScript WhiteSpace and
 LineTerminator code points), trimming, and counting a character.
 */
module JsText {

  /** A code point in ECMAScript's WhiteSpace or LineTerminator sets: what `trim` strips and `\s` matches. */
  predicate IsSpace(c: char) {
    || c == '\t' || c == '\n' || c == '\U{000B}' || c == '\U{000C}' || c == '\r' || c == ' '
    || c == '\U{00A0}' || c == '\U{1680}' || ('\U{2000}' <= c <= '\U{200A}')
    || c == '\U{2028}' || c == '\U{2029}' || c == '\U{202F}' || c == '\U{205F}'
    || c == '\U{3000}' || c == '\U{FEFF}'
  }

  predicate AllSpace(s: string) {
    forall k :: 0 <= k < |s| ==> IsSpace(s[k])
  }

  /** No white space anywhere in `s`. */
  predicate NoSpace(s: string) {
    forall k :: 0 <= k < |s| ==> !IsSpace(s[k])
  }

  /** Neither end of `s` is white space (vacuous for the empty string). */
  predicate Trimmed(s: string) {
    s == [] || (!IsSpace(s[0]) && !IsSpace(s[|s| - 1]))
  }

  /** Leading white space removed: the result is the suffix of `s` after its white-space prefix. */
  function TrimStart(s: string): (r: string)
    ensures |r| <= |s| && r == s[|s| - |r|..]
    ensures AllSpace(s[..|s| - |r|])
    ensures r == [] || !IsSpace(r[0])
  {
    if |s| > 0 && IsSpace(s[0]) then
      var r := TrimStart(s[1..]);
      assert s[1..][|s| - 1 - |r|..] == s[|s| - |r|..];
      assert forall k :: 1 <= k < |s| - |r| ==> s[1..][..|s| - 1 - |r|][k - 1] == s[k];
      r
    else
      s
  }

  /** Trailing white space removed: the result is the prefix of `s` before its white-space suffix. */
  function TrimEnd(s: string): (r: string)
    ensures |r| <= |s| && r == s[..|r|]
    ensures AllSpace(s[|r|..])
    ensures r == [] || !IsSpace(r[|r| - 1])
  {
    if |s| > 0 && IsSpace(s[|s| - 1]) then
      var r := TrimEnd(s[..|s| - 1]);
      assert s[|r|..] == s[..|s| - 1][|r|..] + [s[|s| - 1]];
      r
    else
      s
  }

  /** How many leading white-space characters `trim` removes. */
  function Lead(s: string): (n: nat)
    ensures n <= |s|
  {
    |s| - |TrimStart(s)|
  }

  /** `String.prototype.trim`: leading, then trailing white space removed. */
  function Trim(s: string): (r: string)
    ensures Trimmed(r)
  {
    TrimEnd(TrimStart(s))
  }

  /** What `trim` keeps is the slice of `s` after its white-space prefix and before its
      white-space suffix. */
  lemma TrimSlice(s: string)
    ensures Lead(s) + |Trim(s)| <= |s|
    ensures Trim(s) == s[Lead(s)..Lead(s) + |Trim(s)|]
    ensures AllSpace(s[..Lead(s)]) && AllSpace(s[Lead(s) + |Trim(s)|..])
  {
    var t := TrimStart(s);
    var r := TrimEnd(t);
    PrefixOfSuffix(s, t, r, Lead(s));
  }

  lemma PrefixOfSuffix(s: string, t: string, r: string, i: nat)
    requires i <= |s| && t == s[i..] && |r| <= |t| && r == t[..|r|]
    ensures r == s[i..i + |r|] && t[|r|..] == s[i + |r|..]
  {
  }

  lemma {:induction false} TrimStartSkips(a: string, t: string)
    requires AllSpace(a)
    requires t == [] || !IsSpace(t[0])
    ensures TrimStart(a + t) == t
    decreases |a|
  {
    if a == [] {
      assert a + t == t;
    } else {
      assert (a + t)[1..] == a[1..] + t;
      TrimStartSkips(a[1..], t);
    }
  }

  lemma {:induction false} TrimEndSkips(t: string, b: string)
    requires AllSpace(b)
    requires t == [] || !IsSpace(t[|t| - 1])
    ensures TrimEnd(t + b) == t
    decreases |b|
  {
    if b == [] {
      assert t + b == t;
    } else {
      assert (t + b)[..|t + b| - 1] == t + b[..|b| - 1];
      TrimEndSkips(t, b[..|b| - 1]);
    }
  }

  /** `trim` is determined by its characterisation: whenever `s` is white space, then a slice
      with non-space ends, then white space, `trim` returns exactly that slice. */
  lemma TrimUnique(a: string, m: string, b: string)
    requires AllSpace(a) && AllSpace(b) && Trimmed(m)
    ensures Trim(a + m + b) == m
  {
    if m == [] {
      assert a + m + b == (a + b) + [];
      assert AllSpace(a + b);
      TrimStartSkips(a + b, []);
    } else {
      assert a + m + b == a + (m + b);
      TrimStartSkips(a, m + b);
      TrimEndSkips(m, b);
    }
  }

  /** A value is empty after trimming exactly when it is all white space. */
  lemma TrimEmptyIff(s: string)
    ensures Trim(s) == [] <==> AllSpace(s)
  {
    if AllSpace(s) {
      assert s == s + [] + [];
      TrimUnique(s, [], []);
    }
    if Trim(s) == [] {
      TrimSlice(s);
      assert s[..Lead(s)] == s;
    }
  }

  /** Trimming twice is trimming once. */
  lemma TrimIdempotent(s: string)
    ensures Trim(Trim(s)) == Trim(s)
  {
    var m := Trim(s);
    assert m == [] + m + [];
    TrimUnique([], m, []);
  }

  /** Number of occurrences of `c` in `s`. */
  function Count(s: string, c: char): nat
  {
    if |s| == 0 then 0 else (if s[0] == c then 1 else 0) + Count(s[1..], c)
  }

  lemma {:induction false} CountZeroIff(s: string, c: char)
    ensures Count(s, c) == 0 <==> forall k :: 0 <= k < |s| ==> s[k] != c
  {
    if |s| > 0 {
      CountZeroIff(s[1..], c);
      if Count(s, c) == 0 {
        forall k | 0 <= k < |s| ensures s[k] != c {
          if k > 0 { assert s[1..][k - 1] == s[k]; }
        }
      } else if s[0] != c {
        var k :| 0 <= k < |s[1..]| && s[1..][k] == c;
        assert s[k + 1] == c;
      }
    }
  }

  /** `c` occurs exactly once in `s`, at `i`, iff no other position holds `c`. */
  lemma {:induction false} CountOneAt(s: string, c: char, i: int)
    requires 0 <= i < |s| && s[i] == c
    ensures Count(s, c) == 1 <==> forall k :: 0 <= k < |s| && k != i ==> s[k] != c
  {
    var t := s[1..];
    if i == 0 {
      CountZeroIff(t, c);
      if Count(s, c) == 1 {
        forall k | 0 <= k < |s| && k != i ensures s[k] != c {
          assert t[k - 1] == s[k];
        }
      } else {
        var k :| 0 <= k < |t| && t[k] == c;
        assert s[k + 1] == c;
      }
    } else {
      assert t[i - 1] == c;
      CountOneAt(t, c, i - 1);
      if s[0] == c {
        CountZeroIff(t, c);
      } else {
        if forall k :: 0 <= k < |t| && k != i - 1 ==> t[k] != c {
          forall k | 0 <= k < |s| && k != i ensures s[k] != c {
            if k > 0 { assert t[k - 1] == s[k]; }
          }
        } else {
          var k :| 0 <= k < |t| && k != i - 1 && t[k] == c;
          assert s[k + 1] == c;
        }
      }
    }
  }
}

=== FILE: menu.dfy ===
/**
 The mobile navigation menu, shared by the home page and the Python projects page. The two differ
 only in the window width from which a resize closes an open menu. The menu writes the body's
 scroll lock (`overflow: hidden`), which on the Python page is also written by the project modal.
 */
module Menu {

  /** The two pages with a mobile menu. */
  datatype Page = Home | PythonProjects

  /** The resize handler closes an open menu: above 992 px on the home page, from 769 px on the
      Python page. */
  predicate ResizeCloses(p: Page, width: int) {
    match p
    case Home => width > 992
    case PythonProjects => width >= 769
  }

  /** `isMenuOpen` and the `active` class of the toggle button, the menu and the social links. */
  datatype Nav = Nav(isOpen: bool, toggleActive: bool, menuActive: bool, socialActive: bool)

  /** The menu together with the body's scroll lock. */
  datatype View = View(nav: Nav, scrollLocked: bool)

  const Closed := Nav(false, false, false, false)

  /** The three classes agree with `isMenuOpen`. */
  predicate Synced(n: Nav) {
    n.toggleActive == n.isOpen && n.menuActive == n.isOpen && n.socialActive == n.isOpen
  }

  /** Menu classes in step with the flag and the scroll lock on exactly while the menu is open:
      the invariant of a page where only the menu writes the lock. */
  predicate Coherent(v: View) {
    Synced(v.nav) && v.scrollLocked == v.nav.isOpen
  }

  /** Click on the toggle: the flag and each class flip, and the scroll lock is set to the new
      value of the flag, whatever it was. */
  function Toggle(v: View): (r: View)
    ensures r.nav.isOpen == !v.nav.isOpen
    ensures r.scrollLocked == r.nav.isOpen
    ensures r.nav.toggleActive != v.nav.toggleActive && r.nav.menuActive != v.nav.menuActive
    ensures r.nav.socialActive != v.nav.socialActive
  {
    var n := v.nav;
    View(Nav(!n.isOpen, !n.toggleActive, !n.menuActive, !n.socialActive), !n.isOpen)
  }

  /** The close branch shared by the link and resize handlers. */
  function Close(v: View): (r: View)
    ensures r.nav == Closed && !r.scrollLocked
  {
    View(Closed, false)
  }

  /** Click on a navigation link: closes the menu and unlocks scroll only if the menu is open. */
  function LinkClick(v: View): (r: View)
    ensures !v.nav.isOpen ==> r == v
    ensures v.nav.isOpen ==> r.nav == Closed && !r.scrollLocked
  {
    if v.nav.isOpen then Close(v) else v
  }

  /** The resize handler for the window width `width`. */
  function Resize(p: Page, v: View, width: int): (r: View)
    ensures !(v.nav.isOpen && ResizeCloses(p, width)) ==> r == v
    ensures v.nav.isOpen && ResizeCloses(p, width) ==> r.nav == Closed && !r.scrollLocked
  {
    if ResizeCloses(p, width) && v.nav.isOpen then Close(v) else v
  }

  datatype Event = ToggleClick | NavLinkClick | WindowResize(width: int)

  function Step(p: Page, v: View, e: Event): View {
    match e
    case ToggleClick => Toggle(v)
    case NavLinkClick => LinkClick(v)
    case WindowResize(w) => Resize(p, v, w)
  }

  /** On a page where only the menu writes the scroll lock, every menu event keeps the classes in
      step with the flag and the lock on exactly while the menu is open. */
  lemma StepKeepsCoherent(p: Page, v: View, e: Event)
    requires Coherent(v)
    ensures Coherent(Step(p, v, e))
  {
  }

  /** Two toggles restore a coherent view. */
  lemma ToggleTwice(v: View)
    requires Coherent(v)
    ensures Toggle(Toggle(v)) == v
  {
  }

  /** Widths from 769 to 992 close the menu on the Python page but not on the home page; every
      width that closes it on the home page closes it on the Python page too. */
  lemma ResizeThresholdsDiffer(width: int)
    ensures ResizeCloses(Home, width) ==> ResizeCloses(PythonProjects, width)
    ensures ResizeCloses(PythonProjects, width) && !ResizeCloses(Home, width) <==> 769 <= width <= 992
  {
  }
}

=== FILE: one_shot.dfy ===
/**
 The intersection-driven guards of the three pages, over a stream of intersection entries for one
 element (true for an entry that is intersecting). Each element is handled on its own, so one
 element's stream is all a guard sees.
 - Counters (`.stat-number`, home and BI pages): stay observed; the `animated` class stops a second
   animation.
 - Lazy elements (`[data-lazy]`, Python page): unobserved on their first intersecting entry, after
   which no entry is delivered.
 - Reveal targets (scroll animations of all three pages): a class added on every intersecting
   entry and never removed.
 */
module OneShot {
  import opened Wrappers

  ghost predicate AnyHit(entries: seq<bool>) {
    exists k :: 0 <= k < |entries| && entries[k]
  }

  lemma {:induction false} AnyHitCons(entries: seq<bool>)
    requires entries != []
    ensures AnyHit(entries) <==> entries[0] || AnyHit(entries[1..])
  {
    if AnyHit(entries) && !entries[0] {
      var k :| 0 <= k < |entries| && entries[k];
      assert entries[1..][k - 1];
    }
    if AnyHit(entries[1..]) {
      var k :| 0 <= k < |entries[1..]| && entries[1..][k];
      assert entries[k + 1];
    }
  }

  // ----- Counters -----

  /** The `animated` class of a counter and the number of animations started on it. */
  datatype Counter = Counter(animated: bool, runs: nat)

  /** The counter observer's callback for one entry. */
  function CounterEntry(c: Counter, intersecting: bool): (r: Counter)
    ensures r.animated == (c.animated || intersecting)
    ensures r.runs == c.runs + (if intersecting && !c.animated then 1 else 0)
  {
    if intersecting && !c.animated then Counter(true, c.runs + 1) else c
  }

  function RunCounter(c: Counter, entries: seq<bool>): Counter
    decreases |entries|
  {
    if entries == [] then c else RunCounter(CounterEntry(c, entries[0]), entries[1..])
  }

  /** Starting unanimated, a counter is animated once if any entry intersects and never otherwise,
      however many entries arrive. */
  lemma {:induction false} CounterAnimatesOnce(c: Counter, entries: seq<bool>)
    requires c.runs == (if c.animated then 1 else 0)
    ensures RunCounter(c, entries).animated == (c.animated || AnyHit(entries))
    ensures RunCounter(c, entries).runs == (if c.animated || AnyHit(entries) then 1 else 0)
    decreases |entries|
  {
    if entries != [] {
      AnyHitCons(entries);
      CounterAnimatesOnce(CounterEntry(c, entries[0]), entries[1..]);
    }
  }

  // ----- Lazy loading -----

  /** A `[data-lazy]` element: the attribute's value, its `src`, its `loaded` class and whether
      the lazy observer still watches it. */
  datatype Lazy = Lazy(dataLazy: string, src: Option<string>, loaded: bool, observed: bool)

  /** The lazy observer's callback: on an intersecting entry the source is copied (with the
      `loaded` class) only when `data-lazy` is non-empty, and the element is unobserved either way. */
  function LazyEntry(e: Lazy, intersecting: bool): (r: Lazy)
    ensures !e.observed || !intersecting ==> r == e
    ensures e.observed && intersecting ==> !r.observed
    ensures e.observed && intersecting && e.dataLazy != "" ==> r.src == Some(e.dataLazy) && r.loaded
    ensures e.observed && intersecting && e.dataLazy == "" ==> r.src == e.src && r.loaded == e.loaded
    ensures r.dataLazy == e.dataLazy
  {
    if !e.observed || !intersecting then e
    else if e.dataLazy != "" then Lazy(e.dataLazy, Some(e.dataLazy), true, false)
    else e.(observed := false)
  }

  function RunLazy(e: Lazy, entries: seq<bool>): Lazy
    decreases |entries|
  {
    if entries == [] then e else RunLazy(LazyEntry(e, entries[0]), entries[1..])
  }

  /** Once unobserved, an element ignores every further entry. */
  lemma {:induction false} UnobservedIsFinal(e: Lazy, entries: seq<bool>)
    requires !e.observed
    ensures RunLazy(e, entries) == e
    decreases |entries|
  {
    if entries != [] {
      UnobservedIsFinal(LazyEntry(e, entries[0]), entries[1..]);
    }
  }

  /** An observed element stays observed until its first intersecting entry; after it, it is
      unobserved and its source has been set from `data-lazy` exactly when that was non-empty. */
  lemma {:induction false} LazyLoadsOnce(e: Lazy, entries: seq<bool>)
    requires e.observed
    ensures RunLazy(e, entries).observed <==> !AnyHit(entries)
    ensures RunLazy(e, entries).loaded <==> e.loaded || (AnyHit(entries) && e.dataLazy != "")
    ensures RunLazy(e, entries).src == if AnyHit(entries) && e.dataLazy != "" then Some(e.dataLazy) else e.src
    decreases |entries|
  {
    if entries != [] {
      AnyHitCons(entries);
      if entries[0] {
        UnobservedIsFinal(LazyEntry(e, entries[0]), entries[1..]);
      } else {
        LazyLoadsOnce(e, entries[1..]);
      }
    }
  }

  // ----- Reveal -----

  /** A scroll-animation observer's callback: an intersecting entry adds the reveal class. */
  function RevealEntry(revealed: bool, intersecting: bool): (r: bool)
    ensures r <==> revealed || intersecting
  {
    if intersecting then true else revealed
  }

  function RunReveal(revealed: bool, entries: seq<bool>): bool
    decreases |entries|
  {
    if entries == [] then revealed else RunReveal(RevealEntry(revealed, entries[0]), entries[1..])
  }

  /** Revealing is monotonic: an element ends revealed exactly when it started so or some entry
      intersected, and leaving the viewport never hides it again. */
  lemma {:induction false} RevealMonotonic(revealed: bool, entries: seq<bool>)
    ensures RunReveal(revealed, entries) <==> revealed || AnyHit(entries)
    decreases |entries|
  {
    if entries != [] {
      AnyHitCons(entries);
      RevealMonotonic(RevealEntry(revealed, entries[0]), entries[1..]);
    }
  }
}

=== FILE: python_page.dfy ===
/**
 The Python projects page: its project registry, the project modal, and the page state in which the
 mobile menu and the modal both write the body's scroll lock.
 */
module PythonPage {
  import opened Wrappers
  import Menu

  /** Stands for the literal section markup stored with a registry entry; the markup itself is a
      constant of the page and is never inspected. */
  datatype Blob = Blob(entry: string)

  datatype Project = Project(title: string, content: Blob)

  /** `projetosData`: the page's two projects, by id. */
  function Registry(): (m: map<string, Project>)
    ensures m.Keys == {"automacao-danfe", "centralizacao-nfs"}
    ensures m["automacao-danfe"].title == "Automação de Renomeação e Organização de DANFE"
    ensures m["centralizacao-nfs"].title == "Centralização Automática de Notas Fiscais no Protheus"
  {
    map[
      "automacao-danfe" := Project("Automação de Renomeação e Organização de DANFE", Blob("automacao-danfe")),
      "centralizacao-nfs" := Project("Centralização Automática de Notas Fiscais no Protheus", Blob("centralizacao-nfs"))
    ]
  }

  /** What the modal body holds: nothing yet, or a header with the project title followed by the
      scrolling content of the project. */
  datatype Body = Blank | Rendered(title: string, content: Blob)

  /** The modal's `active` class and its body. */
  datatype Modal = Modal(active: bool, body: Body)

  /** The page: the mobile menu, the modal and the body's scroll lock that both write. */
  datatype Page = Page(nav: Menu.Nav, modal: Modal, scrollLocked: bool)

  /** `openProjectModal(id)`: an unknown id changes nothing; a known one renders the project,
      activates the modal and locks scroll, replacing whatever the modal showed before. */
  function Open(p: Page, id: string): (r: Page)
    ensures id !in Registry() ==> r == p
    ensures id in Registry() ==>
      && r.modal == Modal(true, Rendered(Registry()[id].title, Registry()[id].content))
      && r.scrollLocked
      && r.nav == p.nav
  {
    if id !in Registry() then p
    else
      var project := Registry()[id];
      p.(modal := Modal(true, Rendered(project.title, project.content)), scrollLocked := true)
  }

  /** `closeProjectModal`: unconditionally deactivates the modal and unlocks scroll. The body keeps
      its last content. */
  function Close(p: Page): (r: Page)
    ensures !r.modal.active && !r.scrollLocked
    ensures r.nav == p.nav && r.modal.body == p.modal.body
  {
    p.(modal := p.modal.(active := false), scrollLocked := false)
  }

  /** A click target as the document's click handler sees it: whether it is the modal container
      itself, whether it has the `modal-overlay` class, and whether it lies inside `.modal-content`,
      whose own handler stops the click from reaching the document. */
  datatype Target = Target(isModal: bool, hasOverlayClass: bool, insideContent: bool)

  predicate BackdropClick(t: Target) {
    !t.insideContent && (t.isModal || t.hasOverlayClass)
  }

  datatype Event =
    | MenuEvent(e: Menu.Event)
    | OpenProject(id: string)
    | CloseButton
    | KeyDown(key: string)
    | DocumentClick(target: Target)

  /** The menu handlers on this page, reading and writing the shared scroll lock. */
  function MenuStep(p: Page, e: Menu.Event): (r: Page)
    ensures r.modal == p.modal
  {
    var v := Menu.Step(Menu.PythonProjects, Menu.View(p.nav, p.scrollLocked), e);
    p.(nav := v.nav, scrollLocked := v.scrollLocked)
  }

  /** Every handler of the page, as written. Escape closes the modal without checking whether it
      is open; a document click closes it only on the backdrop. */
  function Step(p: Page, e: Event): Page {
    match e
    case MenuEvent(m) => MenuStep(p, m)
    case OpenProject(id) => Open(p, id)
    case CloseButton => Close(p)
    case KeyDown(k) => if k == "Escape" then Close(p) else p
    case DocumentClick(t) => if BackdropClick(t) then Close(p) else p
  }

  /** Opening a second project while one is shown replaces the content and keeps the modal open
      and scroll locked. */
  lemma OpenTwice(p: Page, a: string, b: string)
    requires a in Registry() && b in Registry()
    ensures Open(Open(p, a), b).modal == Modal(true, Rendered(Registry()[b].title, Registry()[b].content))
    ensures Open(Open(p, a), b).scrollLocked
    ensures Open(Open(p, a), b) == Open(p, b)
  {
  }

  /** Closing twice is closing once, and opening then closing leaves scroll unlocked whatever the
      state before. */
  lemma CloseIdempotent(p: Page, id: string)
    ensures Close(Close(p)) == Close(p)
    ensures !Close(Open(p, id)).scrollLocked && !Close(Open(p, id)).modal.active
  {
  }

  /** A document click closes the modal exactly on the backdrop: the container itself or an
      element with the overlay class, outside the modal content. */
  lemma DocumentClickCloses(p: Page, t: Target)
    requires p.modal.active
    ensures !Step(p, DocumentClick(t)).modal.active <==> BackdropClick(t)
  {
  }

  // ----- Scroll lock shared by the menu and the modal -----

  /** What the page's comments promise: scroll is prevented while the menu is open, and while a
      project is shown. */
  predicate LockReflects(p: Page) {
    p.scrollLocked == (p.nav.isOpen || p.modal.active)
  }

  /** As written, Escape with the mobile menu open and no modal unlocks scroll while the menu
      stays open: the menu's own invariant is broken. */
  lemma EscapeUnlocksOpenMenu()
    ensures var p := Page(Menu.Nav(true, true, true, true), Modal(false, Blank), true);
      && LockReflects(p)
      && Step(p, KeyDown("Escape")).nav.isOpen
      && !Step(p, KeyDown("Escape")).scrollLocked
      && !LockReflects(Step(p, KeyDown("Escape")))
  {
  }

  /** As written, opening the menu, opening a project and toggling the menu shut unlocks scroll
      under the open modal. */
  lemma ToggleUnlocksOpenModal(p: Page, id: string)
    requires !p.nav.isOpen && Menu.Synced(p.nav) && id in Registry()
    ensures var q := Open(Step(p, MenuEvent(Menu.ToggleClick)), id);
      && LockReflects(q)
      && Step(q, MenuEvent(Menu.ToggleClick)).modal.active
      && !Step(q, MenuEvent(Menu.ToggleClick)).scrollLocked
      && !LockReflects(Step(q, MenuEvent(Menu.ToggleClick)))
  {
  }

  /** The handlers with the lock derived from both owners: each writer leaves the lock on while
      the other one still needs it. */
  function StepFixed(p: Page, e: Event): (r: Page)
    ensures r.nav == Step(p, e).nav && r.modal == Step(p, e).modal
  {
    var q := Step(p, e);
    if q == p then p
    else
      match e
      case MenuEvent(_) => q.(scrollLocked := q.nav.isOpen || q.modal.active)
      case OpenProject(_) => q
      case _ => q.(scrollLocked := q.nav.isOpen)
  }

  /** The fixed handlers keep the lock on exactly while the menu is open or a project is shown. */
  lemma StepFixedKeepsLock(p: Page, e: Event)
    requires LockReflects(p)
    ensures LockReflects(StepFixed(p, e))
  {
  }

  /** The fix changes nothing where the handlers as written already keep the lock right: it
      differs from them only in the overlapping cases shown above. */
  lemma StepFixedAgrees(p: Page, e: Event)
    requires LockReflects(p) && LockReflects(Step(p, e))
    ensures StepFixed(p, e) == Step(p, e)
  {
  }
}

=== FILE: startup.dfy ===
/**
 What each page wires up when it loads, depending on the reader's reduced-motion preference.
 */
module Startup {

  /** The home page's `Portfolio.init`: under reduced motion it returns before initialising
      anything; otherwise every component is wired. */
  datatype HomeWiring = HomeWiring(
    navigation: bool, activeNavigation: bool, smoothScrolling: bool, scrollAnimations: bool,
    skillBars: bool, counters: bool, certifications: bool, contactForm: bool,
    visualEffects: bool, navbarScroll: bool, particles: bool, preloader: bool)

  function HomeInit(reducedMotion: bool): (w: HomeWiring)
    ensures w.navigation == !reducedMotion && w.activeNavigation == !reducedMotion
    ensures w.smoothScrolling == !reducedMotion && w.scrollAnimations == !reducedMotion
    ensures w.skillBars == !reducedMotion && w.counters == !reducedMotion
    ensures w.certifications == !reducedMotion && w.contactForm == !reducedMotion
    ensures w.visualEffects == !reducedMotion && w.navbarScroll == !reducedMotion
    ensures w.particles == !reducedMotion && w.preloader == !reducedMotion
  {
    var on := !reducedMotion;
    HomeWiring(on, on, on, on, on, on, on, on, on, on, on, on)
  }

  /** The BI page's `DOMContentLoaded` handler: reduced motion skips only the scroll animations and
      the counters; filters, the navbar effect and the keyboard handler are always wired. */
  datatype BiWiring = BiWiring(
    scrollAnimations: bool, counters: bool, filters: bool, navbarScroll: bool, keyboard: bool)

  function BiInit(reducedMotion: bool): (w: BiWiring)
    ensures w.filters && w.keyboard && w.navbarScroll
    ensures w.scrollAnimations <==> !reducedMotion
    ensures w.counters <==> !reducedMotion
  {
    BiWiring(!reducedMotion, !reducedMotion, true, true, true)
  }

  /** Under reduced motion the two pages disagree: the BI page still has working filters and
      keyboard handling, the home page has no handler at all (not even its contact form). */
  lemma ReducedMotionDiffers()
    ensures BiInit(true).filters && BiInit(true).keyboard
    ensures !HomeInit(true).contactForm && !HomeInit(true).navigation
    ensures HomeInit(true) == HomeWiring(false, false, false, false, false, false, false, false, false, false, false, false)
  {
  }
}

=== FILE: wrappers.dfy ===
/** Option, used wherever the pages return `null`, read a missing attribute or keep a value that may be absent. */
module Wrappers {

  datatype Option<+T> = None | Some(value: T)
}
